=== FILE: README.md ===
# deno-license, modelled in Dafny

deno-license ships a set of software-license templates and fills their placeholders.
This project models two parts of it.

- **The license registry** (`src/LicenseRegistry.ts`) holds the templates keyed by
  SPDX-like id. Its hand-written placeholder table lists, per license, the tokens to
  replace. Each token is a literal found in the text plus the role (`year`, `owner`
  or `softwareName`) whose value replaces it.
  - `has` and `list` answer questions about the stored keys.
  - `expectedMappings` lists a license's roles.
  - `fetch` fills a template. It throws when the license is unknown or its text is
    empty, or when a role has no non-empty value.
- **The installer** (`src/install.ts`) turns what the user typed into a key, fills the
  chosen template and writes it to a file.
  - `normalizeLicenseKey` lower-cases the input, drops `-`, `_` and `.`, and looks
    the result up in an alias table. When the table has no entry it falls back to
    the input as typed.
  - `applyTemplatePlaceholders` asks for an owner only when the text mentions one,
    and for a software name only when the text contains `[SOFTWARE NAME]`.
  - `replacePlaceholders` performs the replacements.

Both files replace a placeholder the same way: every case-insensitive occurrence of
the literal, scanned left to right and without overlap. `Text.ReplaceAll` models
that, and `Consistency` proves that a successful `fetch` is exactly
`replacePlaceholders` run over the license's tokens.

Layout:

- `Wrappers.dfy`: `Option` (a possibly-`undefined` value) and `Result` (a value or a
  thrown `Error`).
- `Text.dfy`:
  - ASCII case folding;
  - character removal (the `/[-_.]/g` and `/[<>]/g` replaces);
  - `String.prototype.trim`;
  - the global case-insensitive literal replace.
- `LicenseRegistry.dfy`: tokens, the placeholder table, `has`, `list`,
  `expectedMappings` and `fetch`.
- `Install.dfy`: `normalizeLicenseKey`, `replacePlaceholders`,
  `applyTemplatePlaceholders`, and the result of `installLicense` without its I/O.
- `Consistency.dfy`: the agreement between `fetch` and `replacePlaceholders`.

## Model

| member | source | states |
|---|---|---|
| Text.ReplaceAll | src/LicenseRegistry.ts:62-64 | `text.replace(new RegExp(escaped, "gi"), value)`, also at src/install.ts:92-94. It has no contract of its own: ReplaceAllFirstMatch and ReplaceAllUnchanged together determine it for every non-empty literal, and ReplaceAllIgnoresPatternCase, ReplaceAllCopies and ReplaceAllInsertsValue state the `i` and `g` flags. |
| Text.ReplaceAllUnchanged | src/LicenseRegistry.ts:62-64 | A text in which the (non-empty) literal does not occur in any letter case comes back unchanged. |
| Text.ReplaceAllFirstMatch | src/install.ts:92-94 | The leftmost case-insensitive occurrence is replaced by the value. The text before it is kept. The scan resumes right after the occurrence, so matches never overlap. |
| Text.ReplaceAllSkipsPrefix | src/install.ts:93-94 | A prefix in which no occurrence starts is copied through unchanged. |
| Text.ReplaceAllIgnoresPatternCase | src/LicenseRegistry.ts:63 | With the `i` flag, two literals that differ only in letter case replace the same text. |
| Text.ReplaceAllCopies | src/LicenseRegistry.ts:63-64 | With the `g` flag, every copy is replaced: a text made of copies of the literal, each in any case, becomes that many copies of the value. |
| Text.ReplaceAllInsertsValue | src/install.ts:94 | A text that contains the literal comes back containing the value verbatim. |
| Text.ToLower | src/install.ts:35 | Lower-casing keeps the length. |
| Text.RemoveCharsSpec | src/install.ts:35 | Deleting a character class keeps exactly the other characters and never lengthens the string. A string with none of the class is unchanged. |
| Text.RemoveCharsAppend | src/LicenseRegistry.ts:5 | Deletion works piecewise over a concatenation, so the kept characters stay in order. |
| Text.Trim | src/install.ts:67 | The trimmed answer is the slice after the leading whitespace. It neither starts nor ends with JavaScript whitespace. |
| Text.TrimDropsOnlyWhitespace | src/install.ts:72 | Only whitespace lies before and after the trimmed slice. |
| Text.TrimEmpty | src/install.ts:67-68 | The trimmed answer is empty exactly when the answer is all whitespace. |
| Text.TrimIdempotent | src/install.ts:67 | Trimming twice is trimming once. |
| LicenseRegistry.CreateToken | src/LicenseRegistry.ts:4-6 | `createToken`. It has no contract of its own: CreateTokenSpec and CreateTokenUnwraps pin it down. |
| LicenseRegistry.CreateTokenSpec | src/LicenseRegistry.ts:4-6 | The literal is kept verbatim. The role is `mapsTo`, or the literal when `mapsTo` is omitted, with exactly the angle brackets removed. A role without brackets is unchanged. |
| LicenseRegistry.CreateTokenUnwraps | src/LicenseRegistry.ts:5 | A role written `<role>` becomes `role`. |
| LicenseRegistry.PlaceHolders | src/LicenseRegistry.ts:16-29 | The `templatePlaceHolders` table, each token written as the value its `createToken` call yields. It has no contract of its own: PlaceHoldersBsd, PlaceHoldersMit and PlaceHoldersHippocratic tie each entry to its calls, and TableRoles bounds its roles. |
| LicenseRegistry.PlaceHoldersBsd | src/LicenseRegistry.ts:17 | BSD-3's table entry is the two `createToken` calls on `<year>` and `<owner>`, in that order. |
| LicenseRegistry.PlaceHoldersMit | src/LicenseRegistry.ts:18-21 | MIT's entry is `<year>`, then `<copyright holders>` with the owner role. |
| LicenseRegistry.PlaceHoldersHippocratic | src/LicenseRegistry.ts:24-28 | Hippocratic's entry is its three literals, with the year, software-name and owner roles, in that order. |
| LicenseRegistry.HippocraticYear | src/LicenseRegistry.ts:25 | `createToken('(YEAR)','<year>')` yields the year role. |
| LicenseRegistry.HippocraticSoftwareName | src/LicenseRegistry.ts:26 | `createToken('[SOFTWARE NAME]','<softwareName>')` yields the softwareName role. |
| LicenseRegistry.HippocraticOwner | src/LicenseRegistry.ts:27 | `createToken('(COPYRIGHT HOLDER(S)/AUTHOR(S))','<owner>')` yields the owner role. |
| LicenseRegistry.TableRoles | src/LicenseRegistry.ts:16-29 | Every token in the table maps to one of the three keys of the replacement map. |
| LicenseRegistry.Has | src/LicenseRegistry.ts:32-34 | `has`: the key is looked up verbatim. It has no contract of its own: HasMatchesFetch ties it to `fetch` and List to `list`. |
| LicenseRegistry.List | src/LicenseRegistry.ts:37-39 | The listed keys are exactly the keys `has` accepts, each listed once. |
| LicenseRegistry.ExpectedMappings | src/LicenseRegistry.ts:42-44 | One role per token, in table order and without de-duplication. Each role is a replacement-map key. A key missing from the table is excluded, because there the source throws. |
| LicenseRegistry.ExpectedMappingsSuffice | src/LicenseRegistry.ts:41-44 | The listed roles are exactly what `fetch` needs: for a stored, non-empty template with a table entry, `fetch` succeeds if and only if every listed role has a non-empty value. |
| LicenseRegistry.ExpectedMappingsOfTable | tests/LicenseRegistry.test.ts:59-67 | MIT and BSD-3 expect year and owner. GPL-3.0 and AGPL-3.0 expect nothing. Hippocratic expects year, softwareName and owner. |
| LicenseRegistry.Message | src/LicenseRegistry.ts:57 | The two thrown messages, also at line 61. It has no contract of its own: NotFoundMessage states what callers match on. |
| LicenseRegistry.NotFoundMessage | src/LicenseRegistry.ts:57 | The not-found message begins "License not found" and ends with the key. |
| LicenseRegistry.Lookup | src/LicenseRegistry.ts:60 | `replacementMap[token.mapsTo] ?? null`. It has no contract of its own: TokensUsable and ExpectedMappingsSuffice use it to state which tokens are satisfied. |
| LicenseRegistry.ApplyTokens | src/LicenseRegistry.ts:59-65 | The token walk succeeds exactly when every token's role has a non-empty value. Otherwise it reports the first token, in order, that lacks one, together with the license. |
| LicenseRegistry.Fetch | src/LicenseRegistry.ts:47-68 | A missing or empty template is not found, whatever values are passed. Otherwise the first token without a non-empty value is reported. Otherwise `fetch` succeeds. Every error carries the requested key. |
| LicenseRegistry.HasMatchesFetch | src/LicenseRegistry.ts:32-34 | A key `has` rejects is not found by `fetch`. A key `has` accepts, with non-empty text, is found. A successful `fetch` is always of a key `has` accepts. |
| LicenseRegistry.ValuesOf | src/LicenseRegistry.ts:49-55 | The replacement map, with the defaults year `????`, owner `Anonymous` and software name `This Software` for omitted arguments. It has no contract of its own: FetchDefaults states the three defaults. |
| LicenseRegistry.FetchDefaults | src/LicenseRegistry.ts:49-51 | Omitting the arguments is the same as passing year `????`, owner `Anonymous` and software name `This Software`. |
| LicenseRegistry.FetchWithDefaultsSucceeds | src/LicenseRegistry.ts:49-51 | With each argument omitted or non-empty, `fetch` of a stored non-empty template succeeds, because the defaults are non-empty. |
| LicenseRegistry.TokensUsable | src/LicenseRegistry.ts:60-61 | Non-empty year, owner and software name satisfy every tabled token. |
| LicenseRegistry.FetchWithoutTokens | src/LicenseRegistry.ts:54 | A license whose table entry is empty or missing is returned exactly as stored. |
| LicenseRegistry.ApplyTokensUntouched | src/LicenseRegistry.ts:59-65 | Tokens none of which occurs leave the text unchanged. |
| LicenseRegistry.FetchUntouched | src/LicenseRegistry.ts:56-67 | A stored text in which none of its tokens occurs is returned unchanged. |
| LicenseRegistry.FetchMitMissingValues | src/LicenseRegistry.ts:18-21 | For MIT, an empty year is reported (as `<year>`) before an empty owner. An empty owner is reported under the literal `<copyright holders>`. |
| LicenseRegistry.FetchEmptySoftwareName | src/LicenseRegistry.ts:24-28 | An empty software name fails Hippocratic at `[SOFTWARE NAME]`. MIT does not use that role, so it is unaffected. |
| Install.StripKey | src/install.ts:35 | Lower-casing followed by removing `-`, `_` and `.`. It has no contract of its own: StripKeyChar and StripKeyAppend determine it character by character. |
| Install.StripKeyAppend | src/install.ts:35 | Stripping a key works piecewise over a concatenation. |
| Install.StripKeyChar | src/install.ts:35 | A `-`, `_` or `.` disappears. Any other character is lower-cased and kept. |
| Install.Aliases | src/install.ts:36-55 | The 18-entry alias table. It has no contract of its own: AliasTargets, AliasKeysArePlain and NormalizeAliasTable state what it maps to and that each entry is reachable. |
| Install.NormalizeLicenseKey | src/install.ts:34-57 | The result is either the input as typed or one of the five canonical keys. |
| Install.AliasTargets | src/install.ts:36-55 | Every alias maps to a canonical key. |
| Install.StripKeyWithoutSeparators | src/install.ts:35 | Without separators, stripping is lower-casing. |
| Install.StripCanonicalKeys | src/install.ts:35 | BSD-3, MIT, Hippocratic, GPL-3.0 and AGPL-3.0 strip to bsd3, mit, hippocratic, gpl30 and agpl30. |
| Install.StripMajor | src/install.ts:35 | A name, `-` and a digit strip to the lower-case name and the digit. |
| Install.StripMajorMinor | src/install.ts:35 | A name, `-`, a digit, `.` and a digit strip to the lower-case name and both digits. |
| Install.CanonicalKeysAreFixed | src/install.ts:37-54 | Every canonical key normalizes to itself. |
| Install.NormalizeIdempotent | src/install.ts:34-57 | Normalizing twice is normalizing once. |
| Install.AliasKeysArePlain | src/install.ts:36-55 | Every alias is lower-case and has no separator. |
| Install.StripPlain | src/install.ts:35 | A lower-case key without separators is its own stripped form. |
| Install.NormalizeAliasTable | src/install.ts:35-56 | Each alias, typed as it is spelled in the table, normalizes to its canonical key. |
| Install.NormalizeFallsBackToInput | src/install.ts:56 | An input whose stripped form is no alias comes back exactly as typed, neither lower-cased nor stripped. |
| Install.NormalizeUnknownLicense | src/install.ts:56 | `UnknownLicense` comes back unchanged. |
| Install.NormalizeApache | src/install.ts:35-56 | `Apache-2.0` strips to `apache20`, which is no alias, so it comes back unchanged rather than as its stripped form. |
| Install.NormalizeIgnoresCase | src/install.ts:35-56 | Inputs that differ only in letter case normalize alike when they hit the table. |
| Install.NormalizeIgnoresSeparator | src/install.ts:35 | Inserting a separator anywhere leaves the stripped form unchanged, and with it any table hit. |
| Install.ReplacePlaceholders | src/install.ts:86-97 | `replacePlaceholders`. It has no contract of its own: ReplacePlaceholdersSplit, ReplacePlaceholdersInOrder, ReplacePlaceholdersSkipsUndefined and ReplacePlaceholdersUnchanged pin it down, and Consistency.FetchIsReplacePlaceholders ties it to `fetch`. |
| Install.ReplacePlaceholdersSplit | src/install.ts:90-95 | Replacing with two records in sequence is replacing with the first, then the second. |
| Install.ReplacePlaceholdersInOrder | src/install.ts:90 | Entries apply in record order: the last one works on the text the others produced. |
| Install.ReplacePlaceholdersSkipsUndefined | src/install.ts:91 | An entry whose value is undefined contributes nothing, wherever it stands. |
| Install.ReplacePlaceholdersUnchanged | src/install.ts:86-97 | A text in which no defined entry's literal occurs is returned unchanged. |
| Install.AnswerOr | src/install.ts:72 | The value is the trimmed answer when that is non-empty. Otherwise it is the fallback. It is never empty. |
| Install.ResolveOwner | src/install.ts:66-69 | An owner is defined exactly when the text mentions an owner literal, in any case. It is then the trimmed answer, or "Anonymous", never empty and never starting with whitespace. |
| Install.ResolveSoftwareName | src/install.ts:71-73 | A software name is defined exactly when the text contains `[SOFTWARE NAME]` verbatim. It is then the trimmed answer, or "this software". |
| Install.MentionsOwner | src/install.ts:66 | The case-insensitive test for any of the three owner literals. It has no contract of its own: ResolveOwner states that an owner is defined exactly when it holds. |
| Install.MentionsSoftwareName | src/install.ts:71 | The case-sensitive test for `[SOFTWARE NAME]`. It has no contract of its own: ResolveSoftwareName states that a software name is defined exactly when it holds. |
| Install.TemplateValues | src/install.ts:75-82 | The six-entry record in its declared order: both year literals, the three owner literals, then `[SOFTWARE NAME]`. It has no contract of its own: ApplyUntouched and ApplyIgnoresUnaskedAnswers are stated over it. |
| Install.ApplyTemplatePlaceholders | src/install.ts:60-83 | `applyTemplatePlaceholders` with the year and answers passed in. It has no contract of its own: ResolveOwner and ResolveSoftwareName give the owner and software-name values, ApplyUntouched and ApplyIgnoresUnaskedAnswers state when the text and the answers matter. |
| Install.ApplyUntouched | src/install.ts:60-83 | A template without any of the six literals, in any case, is returned as is, whatever the year and answers. |
| Install.ApplyIgnoresUnaskedAnswers | src/install.ts:66-73 | An answer changes nothing unless its prompt would have been shown. |
| Install.InstallLicense | src/install.ts:14-31 | It fails exactly when the normalized key has no non-empty template, and the error names the normalized key. Otherwise it writes the filled text plus one newline, to the given output file or to `LICENSE`. |
| Install.InstallAcceptsAliases | src/install.ts:19-26 | Two spellings with the same stripped alias install the same file. |
| Consistency.ApplyTokensIsReplacePlaceholders | src/LicenseRegistry.ts:59-65 | A successful token walk equals `replacePlaceholders` over the tokens, each bound to its role's value, in table order. |
| Consistency.FetchIsReplacePlaceholders | src/install.ts:86-97 | A successful `fetch` equals `replacePlaceholders` on the stored text with the license's token bindings. |

## Left out

- `ExpectedMappings`: the source does not de-duplicate roles, and for a key missing from
  the placeholder table it throws a TypeError, because `.map` of `undefined` runs before
  `?? []` (src/LicenseRegistry.ts:43). The model requires a table entry.
- Reading `licenses.json` is not modelled. A registry is built over an arbitrary map
  from key to text, so every property holds for any bundled data. The concrete
  template texts are not part of this model.
- `Deno.writeTextFile` and `console.log` are left out. `InstallLicense` returns the
  path and contents it would write.
- `prompt` and `new Date().getFullYear()` become parameters: the answers (absent when
  the prompt is dismissed) and the year string.
- `installLicense`'s `async`/`Promise` wrapping is not modelled.
- `mod.ts`, `scripts/`, `tests/fetch.test.ts` and `tests/install.test.ts` are not part
  of this model.
  - The install tests call `installWithPrompts`, which `src/install.ts` does not
    define.
  - The fetch scripts download templates over the network.
- `Text.ReplaceAll`: a value is inserted literally. The special replacement patterns
  of `String.prototype.replace` (`$&`, `$1`, `` $` ``, `$'`, `$$`) are not modelled.
- Escaping the literal into a RegExp is assumed correct. That is, the escaped
  pattern is taken to match the literal text exactly.
- `Text.LowerChar`: letter case is folded for ASCII letters only. JavaScript's
  Unicode case mapping under `toLowerCase` and the `i` flag is not modelled.
- Strings are sequences of characters, not UTF-16 code units. Surrogate pairs are not
  modelled.
- Lookups that fall through to `Object.prototype` (a key such as `constructor` in the
  alias table, the placeholder table or the replacement map) are not modelled.
  Only own entries are seen.
- `Install.ReplacePlaceholders`: the record is modelled as its entry list in insertion
  order. JavaScript's ordering of integer-like keys first and the impossibility of
  duplicate keys are not modelled; the only record passed (src/install.ts:75-82) has
  six distinct, non-numeric keys.
- `List`: the order of `Object.keys` (insertion order) is not modelled. Only the set
  of keys and their distinctness is stated.

=== FILE: Consistency.dfy ===
/** The registry's `fetch` and the installer's `replacePlaceholders` implement the same
    substitution: a successful `fetch` is `replacePlaceholders` over the license's tokens,
    each bound to its role's value, in table order. */
module Consistency {
  import opened Wrappers
  import opened Text
  import opened LicenseRegistry
  import opened Install

  /** The replacement record `fetch` effectively uses: each token literal with its role's value. */
  function Bindings(tokens: seq<Token>, values: Replacements): seq<(string, Option<string>)> {
    seq(|tokens|, i requires 0 <= i < |tokens| => (tokens[i].name, Lookup(values, tokens[i].mapsTo)))
  }

  /** A successful token walk is `replacePlaceholders` over the bindings. */
  lemma {:induction false} ApplyTokensIsReplacePlaceholders(text: string, tokens: seq<Token>,
                                                            values: Replacements, license: string)
    requires ApplyTokens(text, tokens, values, license).Success?
    ensures ApplyTokens(text, tokens, values, license).value == ReplacePlaceholders(text, Bindings(tokens, values))
    decreases |tokens|
  {
    if |tokens| > 0 {
      var b := Bindings(tokens, values);
      var next := ReplaceAll(text, tokens[0].name, Lookup(values, tokens[0].mapsTo).value);
      assert ReplaceEntry(text, b[0]) == next;
      assert b[1..] == Bindings(tokens[1..], values);
      ApplyTokensIsReplacePlaceholders(next, tokens[1..], values, license);
    }
  }

  /** A successful `fetch` equals `replacePlaceholders` applied to the stored text. */
  lemma FetchIsReplacePlaceholders(reg: Registry, license: string, year: Option<string>,
                                   owner: Option<string>, softwareName: Option<string>)
    requires Fetch(reg, license, year, owner, softwareName).Success?
    ensures Fetch(reg, license, year, owner, softwareName).value
         == ReplacePlaceholders(reg.templates[license], Bindings(TokensOf(license), ValuesOf(year, owner, softwareName)))
  {
    ApplyTokensIsReplacePlaceholders(reg.templates[license], TokensOf(license),
                                     ValuesOf(year, owner, softwareName), license);
  }
}

=== FILE: Install.dfy ===
/** The installer's pure helpers: turning a loosely typed license name into a template
    key, and filling a template's placeholders from prompt answers.

    The prompts, the clock and the file write are not part of this model: the prompt
    answers (`null` when a prompt is dismissed) and the current year are parameters, and
    the installer's result is the text it would write.
 */
module Install {
  import opened Wrappers
  import opened Text

  /** The characters dropped from user input before the alias lookup. */
  const Separators: set<char> := {'-', '_', '.'}

  /** The stripped form: lower-cased, with every `-`, `_` and `.` removed. */
  function StripKey(input: string): string {
    RemoveChars(ToLower(input), Separators)
  }

  /** Stripping works character by character, so it distributes over concatenation. */
  lemma StripKeyAppend(a: string, b: string)
    ensures StripKey(a + b) == StripKey(a) + StripKey(b)
  {
    assert ToLower(a + b) == ToLower(a) + ToLower(b);
    RemoveCharsAppend(ToLower(a), ToLower(b), Separators);
  }

  /** On one character: a separator disappears, anything else is lower-cased and kept. */
  lemma StripKeyChar(c: char)
    ensures StripKey([c]) == if c in Separators then [] else [LowerChar(c)]
  {
    var lower := ToLower([c]);
    assert lower == [LowerChar(c)];
    assert lower[..0] == [];
    assert RemoveChars(lower[..0], Separators) == [];
    assert LowerChar(c) in Separators <==> c in Separators;
  }

  /** The alias table, keyed by stripped form. */
  const Aliases: map<string, string> := map[
    "bsd" := "BSD-3",
    "bsd3" := "BSD-3",
    "bsd3clause" := "BSD-3",
    "mit" := "MIT",
    "hippocratic" := "Hippocratic",
    "hippocratic21" := "Hippocratic",
    "hippocraticv21" := "Hippocratic",
    "hippocraticv2" := "Hippocratic",
    "gpl" := "GPL-3.0",
    "gpl3" := "GPL-3.0",
    "gplv3" := "GPL-3.0",
    "gpl30" := "GPL-3.0",
    "gplv30" := "GPL-3.0",
    "agpl" := "AGPL-3.0",
    "agpl3" := "AGPL-3.0",
    "agplv3" := "AGPL-3.0",
    "agpl30" := "AGPL-3.0",
    "agplv30" := "AGPL-3.0"
  ]

  /** The canonical keys the alias table resolves to. */
  const CanonicalKeys: set<string> := {"BSD-3", "MIT", "Hippocratic", "GPL-3.0", "AGPL-3.0"}

  /** `normalizeLicenseKey`: the canonical key of the stripped form when the alias table
      knows it, and otherwise the input exactly as given (not its stripped form). */
  function NormalizeLicenseKey(input: string): (key: string)
    ensures key == input || key in CanonicalKeys
  {
    AliasTargets();
    var stripped := StripKey(input);
    if stripped in Aliases then Aliases[stripped] else input
  }

  /** Every alias resolves to a canonical key. */
  lemma AliasTargets()
    ensures forall k :: k in Aliases ==> Aliases[k] in CanonicalKeys
  {
  }

  /** Without separators, stripping is just lower-casing. */
  lemma StripKeyWithoutSeparators(s: string)
    requires forall i :: 0 <= i < |s| ==> s[i] !in Separators
    ensures StripKey(s) == ToLower(s)
  {
    RemoveCharsSpec(ToLower(s), Separators);
  }

  /** The stripped forms of the canonical keys. */
  lemma StripCanonicalKeys()
    ensures StripKey("BSD-3") == "bsd3"
    ensures StripKey("MIT") == "mit"
    ensures StripKey("Hippocratic") == "hippocratic"
    ensures StripKey("GPL-3.0") == "gpl30"
    ensures StripKey("AGPL-3.0") == "agpl30"
  {
    StripMit();
    StripHippocratic();
    StripBsd();
    StripGpl();
    StripAgpl();
  }

  lemma StripMit()
    ensures StripKey("MIT") == "mit"
  {
    StripKeyWithoutSeparators("MIT");
    assert ToLower("MIT") == "mit";
  }

  lemma StripHippocratic()
    ensures StripKey("Hippocratic") == "hippocratic"
  {
    StripKeyWithoutSeparators("Hippocratic");
    assert ToLower("Hippocratic") == "hippocratic";
  }

  lemma StripBsd()
    ensures StripKey("BSD-3") == "bsd3"
  {
    assert ToLower("BSD") == "bsd";
    StripMajor("BSD", "bsd", '3');
    assert "BSD" + ['-', '3'] == "BSD-3";
  }

  lemma StripGpl()
    ensures StripKey("GPL-3.0") == "gpl30"
  {
    assert ToLower("GPL") == "gpl";
    StripMajorMinor("GPL", "gpl", '3', '0');
    assert "GPL" + ['-', '3', '.', '0'] == "GPL-3.0";
  }

  lemma StripAgpl()
    ensures StripKey("AGPL-3.0") == "agpl30"
  {
    assert ToLower("AGPL") == "agpl";
    StripMajorMinor("AGPL", "agpl", '3', '0');
    assert "AGPL" + ['-', '3', '.', '0'] == "AGPL-3.0";
  }

  /** Appending one character appends its stripped form. */
  lemma StripSuffixChar(p: string, c: char)
    ensures StripKey(p + [c]) == StripKey(p) + if c in Separators then [] else [LowerChar(c)]
  {
    StripKeyAppend(p, [c]);
    StripKeyChar(c);
  }

  /** A name followed by `-` and a digit: the dash goes, the digit stays. */
  lemma StripMajor(name: string, lower: string, d: char)
    requires forall i :: 0 <= i < |name| ==> name[i] !in Separators
    requires ToLower(name) == lower
    requires '0' <= d <= '9'
    ensures StripKey(name + ['-', d]) == lower + [d]
  {
    StripKeyWithoutSeparators(name);
    StripSuffixChar(name, '-');
    StripSuffixChar(name + ['-'], d);
    assert name + ['-'] + [d] == name + ['-', d];
  }

  /** A name followed by `-`, a digit, `.` and a digit: both digits stay. */
  lemma StripMajorMinor(name: string, lower: string, d: char, e: char)
    requires forall i :: 0 <= i < |name| ==> name[i] !in Separators
    requires ToLower(name) == lower
    requires '0' <= d <= '9' && '0' <= e <= '9'
    ensures StripKey(name + ['-', d, '.', e]) == lower + [d, e]
  {
    StripMajor(name, lower, d);
    StripSuffixChar(name + ['-', d], '.');
    StripSuffixChar(name + ['-', d] + ['.'], e);
    assert name + ['-', d] + ['.'] + [e] == name + ['-', d, '.', e];
  }

  /** Every canonical key normalizes to itself. */
  lemma CanonicalKeysAreFixed()
    ensures forall c :: c in CanonicalKeys ==> NormalizeLicenseKey(c) == c
  {
    StripCanonicalKeys();
  }

  /** Normalizing twice is normalizing once: an alias hit lands on a canonical key, which
      is its own alias, and a miss returns the input, which misses again. */
  lemma NormalizeIdempotent(input: string)
    ensures NormalizeLicenseKey(NormalizeLicenseKey(input)) == NormalizeLicenseKey(input)
  {
    if StripKey(input) in Aliases {
      CanonicalKeysAreFixed();
    }
  }

  /** A lower-case input without separators is its own stripped form. */
  lemma StripPlain(s: string)
    requires forall i :: 0 <= i < |s| ==> s[i] !in Separators && !('A' <= s[i] <= 'Z')
    ensures StripKey(s) == s
  {
    StripKeyWithoutSeparators(s);
    assert ToLower(s) == s;
  }

  /** Every alias is already in stripped form. */
  lemma AliasKeysArePlain()
    ensures forall k, i :: k in Aliases && 0 <= i < |k| ==> k[i] !in Separators && !('A' <= k[i] <= 'Z')
  {
  }

  /** Each spelling of the alias table, typed as written there (`gplv3`, `gpl30`,
      `bsd3clause`, `hippocraticv21`, `agpl`, `mit`, ...), resolves to its canonical key. */
  lemma NormalizeAliasTable(input: string)
    requires input in Aliases
    ensures NormalizeLicenseKey(input) == Aliases[input]
  {
    AliasKeysArePlain();
    StripPlain(input);
  }

  /** An input whose stripped form is not an alias comes back exactly as typed: neither
      lower-cased nor stripped. */
  lemma NormalizeFallsBackToInput(input: string)
    requires StripKey(input) !in Aliases
    ensures NormalizeLicenseKey(input) == input
  {
  }

  /** `UnknownLicense` strips to `unknownlicense`, which is no alias, and comes back as typed. */
  lemma NormalizeUnknownLicense()
    ensures NormalizeLicenseKey("UnknownLicense") == "UnknownLicense"
  {
    StripKeyWithoutSeparators("UnknownLicense");
    assert ToLower("UnknownLicense") == "unknownlicense";
  }

  /** `Apache-2.0` strips to `apache20`, which is no alias; the result is the input as
      typed, not its stripped form. */
  lemma NormalizeApache()
    ensures NormalizeLicenseKey("Apache-2.0") == "Apache-2.0"
  {
    assert ToLower("Apache") == "apache";
    StripMajorMinor("Apache", "apache", '2', '0');
    assert "Apache" + ['-', '2', '.', '0'] == "Apache-2.0";
    assert StripKey("Apache-2.0") == "apache20";
  }

  /** Inputs that differ only in letter case normalize alike when they hit the table. */
  lemma NormalizeIgnoresCase(a: string, b: string)
    requires EqualsIgnoreCase(a, b)
    requires StripKey(a) in Aliases
    ensures NormalizeLicenseKey(a) == NormalizeLicenseKey(b)
  {
  }

  /** Inserting a `-`, `_` or `.` anywhere does not change the stripped form, so an input
      that hits the table normalizes alike with or without it. */
  lemma NormalizeIgnoresSeparator(a: string, b: string, c: char)
    requires c in Separators
    ensures StripKey(a + [c] + b) == StripKey(a + b)
    ensures StripKey(a + b) in Aliases ==> NormalizeLicenseKey(a + [c] + b) == NormalizeLicenseKey(a + b)
  {
    StripKeyAppend(a + [c], b);
    StripKeyAppend(a, [c]);
    StripKeyAppend(a, b);
    StripKeyChar(c);
  }

  /** One entry of the replacement record: an undefined value is skipped, any other value
      replaces every case-insensitive occurrence of the pattern. */
  function ReplaceEntry(text: string, entry: (string, Option<string>)): string {
    match entry.1
    case None => text
    case Some(value) => ReplaceAll(text, entry.0, value)
  }

  /** `replacePlaceholders`: the entries of the record, in order. */
  function ReplacePlaceholders(text: string, values: seq<(string, Option<string>)>): string
    decreases |values|
  {
    if |values| == 0 then text else ReplacePlaceholders(ReplaceEntry(text, values[0]), values[1..])
  }

  /** Replacing with `a + b` is replacing with `a`, then with `b`. */
  lemma {:induction false} ReplacePlaceholdersSplit(text: string, a: seq<(string, Option<string>)>,
                                                    b: seq<(string, Option<string>)>)
    ensures ReplacePlaceholders(text, a + b) == ReplacePlaceholders(ReplacePlaceholders(text, a), b)
    decreases |a|
  {
    if |a| == 0 {
      assert a + b == b;
    } else {
      assert (a + b)[0] == a[0];
      assert (a + b)[1..] == a[1..] + b;
      ReplacePlaceholdersSplit(ReplaceEntry(text, a[0]), a[1..], b);
    }
  }

  /** Entries apply in entry order: the last entry works on the text the others produced. */
  lemma ReplacePlaceholdersInOrder(text: string, values: seq<(string, Option<string>)>,
                                   entry: (string, Option<string>))
    ensures ReplacePlaceholders(text, values + [entry]) == ReplaceEntry(ReplacePlaceholders(text, values), entry)
  {
    ReplacePlaceholdersSplit(text, values, [entry]);
    assert [entry][1..] == [];
  }

  /** An undefined entry contributes nothing, wherever it stands. */
  lemma ReplacePlaceholdersSkipsUndefined(text: string, a: seq<(string, Option<string>)>, pattern: string,
                                          b: seq<(string, Option<string>)>)
    ensures ReplacePlaceholders(text, a + [(pattern, None)] + b) == ReplacePlaceholders(text, a + b)
  {
    ReplacePlaceholdersSplit(text, a + [(pattern, None)], b);
    ReplacePlaceholdersInOrder(text, a, (pattern, None));
    ReplacePlaceholdersSplit(text, a, b);
  }

  /** Text in which no defined entry's pattern occurs is returned unchanged; in particular
      a record whose values are all undefined changes nothing. */
  lemma {:induction false} ReplacePlaceholdersUnchanged(text: string, values: seq<(string, Option<string>)>)
    requires forall i :: 0 <= i < |values| ==>
               values[i].1.None? || (|values[i].0| > 0 && !ContainsIgnoreCase(text, values[i].0))
    ensures ReplacePlaceholders(text, values) == text
    decreases |values|
  {
    if |values| > 0 {
      if values[0].1.Some? {
        ReplaceAllUnchanged(text, values[0].0, values[0].1.value);
      }
      assert ReplaceEntry(text, values[0]) == text;
      ReplacePlaceholdersUnchanged(text, values[1..]);
    }
  }

  /** The owner literals the installer looks for before asking for a holder name. */
  const OwnerPatterns: seq<string> := ["<owner>", "<copyright holders>", "(COPYRIGHT HOLDER(S)/AUTHOR(S))"]

  /** The case-insensitive owner test. */
  predicate MentionsOwner(text: string) {
    exists i :: 0 <= i < |OwnerPatterns| && ContainsIgnoreCase(text, OwnerPatterns[i])
  }

  /** The software-name test, which is case-sensitive. */
  predicate MentionsSoftwareName(text: string) {
    Contains(text, "[SOFTWARE NAME]")
  }

  const FallbackOwner := "Anonymous"
  const FallbackSoftwareName := "this software"

  /** The trimmed prompt answer, or `fallback` when the prompt was dismissed or the
      trimmed answer is empty. */
  function AnswerOr(answer: Option<string>, fallback: string): (value: string)
    requires fallback != ""
    ensures value != ""
    ensures answer.Some? && Trim(answer.value) != "" ==> value == Trim(answer.value)
    ensures answer.None? || Trim(answer.value) == "" ==> value == fallback
  {
    if answer.Some? && Trim(answer.value) != "" then Trim(answer.value) else fallback
  }

  /** The owner value: defined only when the text mentions an owner literal (only then is
      the prompt shown), and then the trimmed answer or "Anonymous". */
  function ResolveOwner(text: string, answer: Option<string>): (owner: Option<string>)
    ensures owner.Some? <==> MentionsOwner(text)
    ensures owner.Some? ==> owner.value != "" && !IsJsWhitespace(owner.value[0])
    ensures owner.Some? && answer.Some? && Trim(answer.value) != "" ==> owner.value == Trim(answer.value)
    ensures owner.Some? && (answer.None? || Trim(answer.value) == "") ==> owner.value == FallbackOwner
  {
    if MentionsOwner(text) then Some(AnswerOr(answer, FallbackOwner)) else None
  }

  /** The software name: defined only when the text contains `[SOFTWARE NAME]` verbatim,
      and then the trimmed answer or the lower-case "this software". */
  function ResolveSoftwareName(text: string, answer: Option<string>): (software: Option<string>)
    ensures software.Some? <==> MentionsSoftwareName(text)
    ensures software.Some? ==> software.value != "" && !IsJsWhitespace(software.value[0])
    ensures software.Some? && answer.Some? && Trim(answer.value) != "" ==> software.value == Trim(answer.value)
    ensures software.Some? && (answer.None? || Trim(answer.value) == "") ==> software.value == FallbackSoftwareName
  {
    if MentionsSoftwareName(text) then Some(AnswerOr(answer, FallbackSoftwareName)) else None
  }

  /** The replacement record of `applyTemplatePlaceholders`, in its declared order. */
  function TemplateValues(year: string, owner: Option<string>, software: Option<string>)
    : seq<(string, Option<string>)>
  {
    [
      ("<year>", Some(year)),
      ("(YEAR)", Some(year)),
      ("<owner>", owner),
      ("<copyright holders>", owner),
      ("(COPYRIGHT HOLDER(S)/AUTHOR(S))", owner),
      ("[SOFTWARE NAME]", software)
    ]
  }

  /** `applyTemplatePlaceholders`, with the current year and the two prompt answers passed in. */
  function ApplyTemplatePlaceholders(text: string, year: string, ownerAnswer: Option<string>,
                                     softwareAnswer: Option<string>): string
  {
    ReplacePlaceholders(text, TemplateValues(year, ResolveOwner(text, ownerAnswer),
                                             ResolveSoftwareName(text, softwareAnswer)))
  }

  /** A template without any of the six literals, in any letter case, is returned as is,
      whatever the year and the answers. */
  lemma ApplyUntouched(text: string, year: string, ownerAnswer: Option<string>, softwareAnswer: Option<string>)
    requires forall i :: 0 <= i < 6 ==> !ContainsIgnoreCase(text, TemplateValues(year, None, None)[i].0)
    ensures ApplyTemplatePlaceholders(text, year, ownerAnswer, softwareAnswer) == text
  {
    var values := TemplateValues(year, ResolveOwner(text, ownerAnswer), ResolveSoftwareName(text, softwareAnswer));
    assert forall i :: 0 <= i < 6 ==> values[i].0 == TemplateValues(year, None, None)[i].0;
    ReplacePlaceholdersUnchanged(text, values);
  }

  /** An answer is only used when its prompt would have been shown. */
  lemma ApplyIgnoresUnaskedAnswers(text: string, year: string, o1: Option<string>, o2: Option<string>,
                                   s1: Option<string>, s2: Option<string>)
    ensures !MentionsOwner(text) ==>
              ApplyTemplatePlaceholders(text, year, o1, s1) == ApplyTemplatePlaceholders(text, year, o2, s1)
    ensures !MentionsSoftwareName(text) ==>
              ApplyTemplatePlaceholders(text, year, o1, s1) == ApplyTemplatePlaceholders(text, year, o1, s2)
  {
  }

  /** Options of `installLicense`. */
  datatype InstallOptions = InstallOptions(license: string, outputFile: Option<string>)

  /** The file `installLicense` writes. */
  datatype Written = Written(path: string, contents: string)

  /** Why `installLicense` throws. */
  datatype InstallError = LicenseNotFound(key: string)

  /** `installLicense` without its I/O: the normalized key must name a non-empty template,
      otherwise the error names the normalized key; the filled text is written with one
      trailing newline to the output file, `LICENSE` by default. */
  function InstallLicense(licenses: map<string, string>, options: InstallOptions, year: string,
                          ownerAnswer: Option<string>, softwareAnswer: Option<string>)
    : (r: Result<Written, InstallError>)
    ensures r.Failure? <==>
              (NormalizeLicenseKey(options.license) !in licenses || licenses[NormalizeLicenseKey(options.license)] == "")
    ensures r.Failure? ==> r.error.key == NormalizeLicenseKey(options.license)
    ensures r.Success? ==> r.value.path == (if options.outputFile.Some? then options.outputFile.value else "LICENSE")
    ensures r.Success? ==>
              && |r.value.contents| > 0
              && r.value.contents[|r.value.contents| - 1] == '\n'
              && r.value.contents[..|r.value.contents| - 1]
                 == ApplyTemplatePlaceholders(licenses[NormalizeLicenseKey(options.license)], year, ownerAnswer, softwareAnswer)
  {
    var key := NormalizeLicenseKey(options.license);
    if key !in licenses || licenses[key] == "" then
      Failure(LicenseNotFound(key))
    else
      var filled := ApplyTemplatePlaceholders(licenses[key], year, ownerAnswer, softwareAnswer);
      var outputPath := options.outputFile.GetOr("LICENSE");
      assert (filled + "\n")[..|filled|] == filled;
      Success(Written(outputPath, filled + "\n"))
  }

  /** Two spellings of the same alias install the same file. */
  lemma InstallAcceptsAliases(licenses: map<string, string>, a: string, b: string, outputFile: Option<string>,
                              year: string, ownerAnswer: Option<string>, softwareAnswer: Option<string>)
    requires StripKey(a) == StripKey(b) && StripKey(a) in Aliases
    ensures InstallLicense(licenses, InstallOptions(a, outputFile), year, ownerAnswer, softwareAnswer)
         == InstallLicense(licenses, InstallOptions(b, outputFile), year, ownerAnswer, softwareAnswer)
  {
  }
}

=== FILE: LicenseRegistry.dfy ===
/** The license registry: bundled templates, the hand-written placeholder table,
    and `fetch`, which fills a template's placeholders or reports why it cannot.

    The bundled `licenses.json` is not part of this model: a registry is built over
    an arbitrary template map, which stands for that file's contents.
 */
module LicenseRegistry {
  import opened Wrappers
  import opened Text

  /** A placeholder of one template: the literal `name` searched for in the text,
      and the replacement role `mapsTo` whose value fills it. */
  datatype Token = Token(name: string, mapsTo: string)

  const AngleBrackets: set<char> := {'<', '>'}

  /** `createToken`: the token of a literal and an optional role. */
  function CreateToken(name: string, mapsTo: Option<string> := None): Token {
    Token(name, RemoveChars(mapsTo.GetOr(name), AngleBrackets))
  }

  /** The literal is kept verbatim; the role is `mapsTo`, or the literal itself when no
      role is given, with every angle bracket removed and every other character kept. */
  lemma CreateTokenSpec(name: string, mapsTo: Option<string>)
    ensures CreateToken(name, mapsTo).name == name
    ensures forall c :: c in CreateToken(name, mapsTo).mapsTo <==> c in mapsTo.GetOr(name) && c !in AngleBrackets
    ensures '<' !in mapsTo.GetOr(name) && '>' !in mapsTo.GetOr(name) ==> CreateToken(name, mapsTo).mapsTo == mapsTo.GetOr(name)
  {
    RemoveCharsSpec(mapsTo.GetOr(name), AngleBrackets);
  }

  /** A role written `<role>` becomes `role`. */
  lemma CreateTokenUnwraps(name: string, mapsTo: Option<string>, role: string)
    requires mapsTo.GetOr(name) == ['<'] + role + ['>']
    requires '<' !in role && '>' !in role
    ensures CreateToken(name, mapsTo) == Token(name, role)
  {
    RemoveCharsAppend(['<'] + role, ['>'], AngleBrackets);
    RemoveCharsAppend(['<'], role, AngleBrackets);
    RemoveCharsSpec(role, AngleBrackets);
    assert RemoveChars(['<'], AngleBrackets) == [];
    assert RemoveChars(['>'], AngleBrackets) == [];
  }

  /** The replacement roles `fetch` knows values for. */
  const Roles: set<string> := {"year", "owner", "softwareName"}

  /** The placeholder table: for each license, its tokens in the order `fetch` applies
      them. Each entry is written here as the token its `createToken` call produces;
      `PlaceHoldersBsd`, `PlaceHoldersMit` and `PlaceHoldersHippocratic` prove that each
      one is exactly that call's result. */
  const PlaceHolders: map<string, seq<Token>> := map[
    "BSD-3" := [Token("<year>", "year"), Token("<owner>", "owner")],
    "MIT" := [Token("<year>", "year"), Token("<copyright holders>", "owner")],
    "GPL-3.0" := [],
    "AGPL-3.0" := [],
    "Hippocratic" := [
      Token("(YEAR)", "year"),
      Token("[SOFTWARE NAME]", "softwareName"),
      Token("(COPYRIGHT HOLDER(S)/AUTHOR(S))", "owner")
    ]
  ]

  /** BSD-3's entry is `[createToken('<year>'), createToken('<owner>')]`: both take their
      role from their own literal. */
  lemma PlaceHoldersBsd()
    ensures PlaceHolders["BSD-3"] == [CreateToken("<year>"), CreateToken("<owner>")]
  {
    CreateTokenUnwraps("<year>", None, "year");
    CreateTokenUnwraps("<owner>", None, "owner");
  }

  /** MIT's entry is `[createToken('<year>'), createToken('<copyright holders>', '<owner>')]`. */
  lemma PlaceHoldersMit()
    ensures PlaceHolders["MIT"] == [CreateToken("<year>"), CreateToken("<copyright holders>", Some("<owner>"))]
  {
    CreateTokenUnwraps("<year>", None, "year");
    CreateTokenUnwraps("<copyright holders>", Some("<owner>"), "owner");
  }

  /** Hippocratic's entry: three literals in their own spelling, with the year, software
      name and owner roles, in that order. */
  lemma PlaceHoldersHippocratic()
    ensures PlaceHolders["Hippocratic"] == [
              CreateToken("(YEAR)", Some("<year>")),
              CreateToken("[SOFTWARE NAME]", Some("<softwareName>")),
              CreateToken("(COPYRIGHT HOLDER(S)/AUTHOR(S))", Some("<owner>"))
            ]
  {
    HippocraticYear();
    HippocraticSoftwareName();
    HippocraticOwner();
  }

  lemma HippocraticYear()
    ensures CreateToken("(YEAR)", Some("<year>")) == Token("(YEAR)", "year")
  {
    CreateTokenUnwraps("(YEAR)", Some("<year>"), "year");
  }

  lemma HippocraticSoftwareName()
    ensures CreateToken("[SOFTWARE NAME]", Some("<softwareName>")) == Token("[SOFTWARE NAME]", "softwareName")
  {
    CreateTokenUnwraps("[SOFTWARE NAME]", Some("<softwareName>"), "softwareName");
  }

  lemma HippocraticOwner()
    ensures CreateToken("(COPYRIGHT HOLDER(S)/AUTHOR(S))", Some("<owner>")) == Token("(COPYRIGHT HOLDER(S)/AUTHOR(S))", "owner")
  {
    CreateTokenUnwraps("(COPYRIGHT HOLDER(S)/AUTHOR(S))", Some("<owner>"), "owner");
  }

  /** Every token of the table maps to one of the three known roles. */
  lemma TableRoles()
    ensures forall license, i :: license in PlaceHolders && 0 <= i < |PlaceHolders[license]|
              ==> PlaceHolders[license][i].mapsTo in Roles
  {
  }

  /** A registry over a template map (license key to license text). */
  datatype Registry = Registry(templates: map<string, string>)

  /** `has`: the key is stored verbatim; there is no fuzzy lookup. */
  predicate Has(reg: Registry, license: string) {
    license in reg.templates
  }

  /** `list`: every stored key exactly once, in no particular order. */
  method List(reg: Registry) returns (keys: seq<string>)
    ensures forall k :: k in keys <==> Has(reg, k)
    ensures forall i, j :: 0 <= i < j < |keys| ==> keys[i] != keys[j]
    ensures |keys| == |reg.templates.Keys|
  {
    var remaining := reg.templates.Keys;
    keys := [];
    while remaining != {}
      invariant remaining <= reg.templates.Keys
      invariant forall k :: k in keys <==> k in reg.templates && k !in remaining
      invariant forall i, j :: 0 <= i < j < |keys| ==> keys[i] != keys[j]
      invariant |keys| + |remaining| == |reg.templates.Keys|
      decreases remaining
    {
      var k :| k in remaining;
      keys := keys + [k];
      remaining := remaining - {k};
    }
  }

  /** `expectedMappings`: the role of each of the license's tokens, in table order and
      without de-duplication. A key missing from the table makes the source throw, so
      the table entry is required. */
  function ExpectedMappings(license: string): (roles: seq<string>)
    requires license in PlaceHolders
    ensures |roles| == |PlaceHolders[license]|
    ensures forall i :: 0 <= i < |roles| ==> roles[i] == PlaceHolders[license][i].mapsTo
    ensures forall i :: 0 <= i < |roles| ==> roles[i] in Roles
  {
    TableRoles();
    seq(|PlaceHolders[license]|, i requires 0 <= i < |PlaceHolders[license]| => PlaceHolders[license][i].mapsTo)
  }

  /** The roles each tabled license asks for. */
  lemma ExpectedMappingsOfTable()
    ensures ExpectedMappings("MIT") == ["year", "owner"]
    ensures ExpectedMappings("BSD-3") == ["year", "owner"]
    ensures ExpectedMappings("GPL-3.0") == []
    ensures ExpectedMappings("AGPL-3.0") == []
    ensures ExpectedMappings("Hippocratic") == ["year", "softwareName", "owner"]
  {
  }

  /** Why `fetch` throws. */
  datatype FetchError =
    | NotFound(license: string)
    | MissingValue(token: string, license: string)

  /** The message of the thrown `Error`. */
  function Message(e: FetchError): string {
    match e
    case NotFound(license) => "License not found for key: " + license
    case MissingValue(token, license) =>
      "Missing replacement value for token: " + token + " in license template: " + license
  }

  /** What callers match on: a not-found error says "License not found" and names the key. */
  lemma NotFoundMessage(license: string)
    ensures Message(NotFound(license))[..17] == "License not found"
    ensures Message(NotFound(license))[|Message(NotFound(license))| - |license|..] == license
  {
  }

  const DefaultYear := "????"
  const DefaultOwner := "Anonymous"
  const DefaultSoftwareName := "This Software"

  /** The replacement map `{year, owner, softwareName}` of one `fetch` call. */
  datatype Replacements = Replacements(year: string, owner: string, softwareName: string)

  /** `replacementMap[role] ?? null`. */
  function Lookup(values: Replacements, role: string): Option<string> {
    if role == "year" then Some(values.year)
    else if role == "owner" then Some(values.owner)
    else if role == "softwareName" then Some(values.softwareName)
    else None
  }

  /** A truthy replacement value: present and not the empty string. */
  predicate Usable(value: Option<string>) {
    value.Some? && value.value != ""
  }

  /** The tokens `fetch` walks for a license: its table entry, or none (`?? []`). */
  function TokensOf(license: string): seq<Token> {
    if license in PlaceHolders then PlaceHolders[license] else []
  }

  /** All tokens in `tokens` have a usable value. */
  predicate AllUsable(tokens: seq<Token>, values: Replacements) {
    forall i :: 0 <= i < |tokens| ==> Usable(Lookup(values, tokens[i].mapsTo))
  }

  /** `tokens[i]` is the first token, in order, without a usable value. */
  predicate FirstUnusable(tokens: seq<Token>, values: Replacements, i: int) {
    && 0 <= i < |tokens|
    && !Usable(Lookup(values, tokens[i].mapsTo))
    && forall j :: 0 <= j < i ==> Usable(Lookup(values, tokens[j].mapsTo))
  }

  /** The `forEach` over the tokens: each token either throws for lack of a value or
      replaces all its case-insensitive occurrences in the text built so far. */
  function ApplyTokens(text: string, tokens: seq<Token>, values: Replacements, license: string)
    : (r: Result<string, FetchError>)
    ensures r.Success? <==> AllUsable(tokens, values)
    ensures r.Failure? ==> r.error.MissingValue? && r.error.license == license
    ensures r.Failure? ==> exists i :: FirstUnusable(tokens, values, i) && tokens[i].name == r.error.token
    decreases |tokens|
  {
    if |tokens| == 0 then
      Success(text)
    else
      var value := Lookup(values, tokens[0].mapsTo);
      if !Usable(value) then
        assert FirstUnusable(tokens, values, 0);
        Failure(MissingValue(tokens[0].name, license))
      else
        var r := ApplyTokens(ReplaceAll(text, tokens[0].name, value.value), tokens[1..], values, license);
        assert r.Failure? ==> exists i :: FirstUnusable(tokens[1..], values, i) && tokens[1..][i].name == r.error.token;
        assert r.Failure? ==> exists i :: FirstUnusable(tokens, values, i) && tokens[i].name == r.error.token by {
          if r.Failure? {
            var i :| FirstUnusable(tokens[1..], values, i) && tokens[1..][i].name == r.error.token;
            assert FirstUnusable(tokens, values, i + 1);
          }
        }
        r
  }

  /** `fetch(license, year?, owner?, softwareName?)`: an omitted argument takes its
      default. A license without stored text, or with empty text, is not found, and that
      is decided before any token is looked at; otherwise the first token (in table order)
      whose role has no non-empty value is reported; otherwise every token is replaced. */
  function Fetch(reg: Registry, license: string, year: Option<string> := None,
                 owner: Option<string> := None, softwareName: Option<string> := None)
    : (r: Result<string, FetchError>)
    ensures (r.Failure? && r.error.NotFound?) <==> (license !in reg.templates || reg.templates[license] == "")
    ensures r.Failure? ==> r.error.license == license
    ensures r.Failure? && r.error.MissingValue? ==>
              exists i :: FirstUnusable(TokensOf(license), ValuesOf(year, owner, softwareName), i)
                && TokensOf(license)[i].name == r.error.token
    ensures r.Success? <==>
              (license in reg.templates && reg.templates[license] != ""
               && AllUsable(TokensOf(license), ValuesOf(year, owner, softwareName)))
  {
    var placeHolders := TokensOf(license);
    var values := ValuesOf(year, owner, softwareName);
    if license !in reg.templates || reg.templates[license] == "" then
      Failure(NotFound(license))
    else
      ApplyTokens(reg.templates[license], placeHolders, values, license)
  }

  /** The replacement map after defaults are filled in for omitted arguments. */
  function ValuesOf(year: Option<string>, owner: Option<string>, softwareName: Option<string>)
    : Replacements
  {
    Replacements(year.GetOr(DefaultYear), owner.GetOr(DefaultOwner), softwareName.GetOr(DefaultSoftwareName))
  }

  /** A value that is omitted (so defaulted) or given non-empty. */
  predicate Supplied(value: Option<string>) {
    value.None? || value.value != ""
  }

  /** `expectedMappings` lists exactly the values `fetch` needs: for a stored, non-empty
      template with a table entry, `fetch` succeeds if and only if every listed role has a
      non-empty value. */
  lemma ExpectedMappingsSuffice(reg: Registry, license: string, year: Option<string>,
                                owner: Option<string>, softwareName: Option<string>)
    requires license in PlaceHolders && license in reg.templates && reg.templates[license] != ""
    ensures Fetch(reg, license, year, owner, softwareName).Success? <==>
              forall i :: 0 <= i < |ExpectedMappings(license)| ==>
                Usable(Lookup(ValuesOf(year, owner, softwareName), ExpectedMappings(license)[i]))
  {
    var roles := ExpectedMappings(license);
    assert TokensOf(license) == PlaceHolders[license];
    assert forall i :: 0 <= i < |roles| ==> roles[i] == TokensOf(license)[i].mapsTo;
  }

  /** An omitted argument behaves as its default: year `????`, owner `Anonymous` and
      software name `This Software`. */
  lemma FetchDefaults(reg: Registry, license: string)
    ensures Fetch(reg, license) == Fetch(reg, license, Some("????"), Some("Anonymous"), Some("This Software"))
  {
    assert ValuesOf(None, None, None) == ValuesOf(Some("????"), Some("Anonymous"), Some("This Software"));
  }

  /** With every argument omitted or non-empty, `fetch` of a stored license succeeds:
      the defaults are non-empty, so the missing-value error cannot arise. */
  lemma FetchWithDefaultsSucceeds(reg: Registry, license: string, year: Option<string>,
                                  owner: Option<string>, softwareName: Option<string>)
    requires license in reg.templates && reg.templates[license] != ""
    requires Supplied(year) && Supplied(owner) && Supplied(softwareName)
    ensures Fetch(reg, license, year, owner, softwareName).Success?
    ensures Fetch(reg, license).Success?
  {
    TokensUsable(license, ValuesOf(year, owner, softwareName));
    TokensUsable(license, ValuesOf(None, None, None));
  }

  /** Non-empty values for all three roles cover every tabled token. */
  lemma TokensUsable(license: string, values: Replacements)
    requires values.year != "" && values.owner != "" && values.softwareName != ""
    ensures AllUsable(TokensOf(license), values)
  {
    var tokens := TokensOf(license);
    TableRoles();
    assert forall i :: 0 <= i < |tokens| ==> tokens[i].mapsTo in Roles;
  }

  /** `has` and `fetch` agree on the keys: a key `has` rejects is not found by `fetch`, a
      key `has` accepts is found unless its text is empty, and every successful `fetch`
      is of a key `has` accepts. */
  lemma HasMatchesFetch(reg: Registry, license: string, year: Option<string>,
                        owner: Option<string>, softwareName: Option<string>)
    ensures !Has(reg, license) ==> Fetch(reg, license, year, owner, softwareName) == Failure(NotFound(license))
    ensures Has(reg, license) && reg.templates[license] != "" ==>
              !(Fetch(reg, license, year, owner, softwareName).Failure?
                && Fetch(reg, license, year, owner, softwareName).error.NotFound?)
    ensures Fetch(reg, license, year, owner, softwareName).Success? ==> Has(reg, license)
  {
  }

  /** A license with no tokens (an empty table entry, or none at all) comes back as stored,
      whatever values are passed. */
  lemma FetchWithoutTokens(reg: Registry, license: string, year: Option<string>,
                           owner: Option<string>, softwareName: Option<string>)
    requires license in reg.templates && reg.templates[license] != ""
    requires license !in PlaceHolders || PlaceHolders[license] == []
    ensures Fetch(reg, license, year, owner, softwareName) == Success(reg.templates[license])
  {
  }

  /** Replacing tokens none of which occurs leaves the text unchanged. */
  lemma {:induction false} ApplyTokensUntouched(text: string, tokens: seq<Token>, values: Replacements, license: string)
    requires AllUsable(tokens, values)
    requires forall i :: 0 <= i < |tokens| ==> |tokens[i].name| > 0 && !ContainsIgnoreCase(text, tokens[i].name)
    ensures ApplyTokens(text, tokens, values, license) == Success(text)
    decreases |tokens|
  {
    if |tokens| > 0 {
      ReplaceAllUnchanged(text, tokens[0].name, Lookup(values, tokens[0].mapsTo).value);
      ApplyTokensUntouched(text, tokens[1..], values, license);
    }
  }

  /** A stored text in which none of its license's tokens occurs is returned unchanged
      whenever `fetch` succeeds. */
  lemma FetchUntouched(reg: Registry, license: string, year: Option<string>,
                       owner: Option<string>, softwareName: Option<string>)
    requires license in reg.templates
    requires forall i :: 0 <= i < |TokensOf(license)| ==> !ContainsIgnoreCase(reg.templates[license], TokensOf(license)[i].name)
    requires Fetch(reg, license, year, owner, softwareName).Success?
    ensures Fetch(reg, license, year, owner, softwareName).value == reg.templates[license]
  {
    ApplyTokensUntouched(reg.templates[license], TokensOf(license), ValuesOf(year, owner, softwareName), license);
  }

  /** Error order inside the token walk: for MIT, an empty year is reported before an
      empty owner, and an empty owner is reported under MIT's literal `<copyright holders>`. */
  lemma FetchMitMissingValues(reg: Registry, owner: Option<string>)
    requires "MIT" in reg.templates && reg.templates["MIT"] != ""
    ensures Fetch(reg, "MIT", Some(""), owner) == Failure(MissingValue("<year>", "MIT"))
    ensures Fetch(reg, "MIT", Some("2023"), Some("")) == Failure(MissingValue("<copyright holders>", "MIT"))
  {
  }

  /** An empty software name only matters to a license whose table uses that role. */
  lemma FetchEmptySoftwareName(reg: Registry)
    requires "MIT" in reg.templates && reg.templates["MIT"] != ""
    requires "Hippocratic" in reg.templates && reg.templates["Hippocratic"] != ""
    ensures Fetch(reg, "MIT", None, None, Some("")).Success?
    ensures Fetch(reg, "Hippocratic", None, None, Some("")) == Failure(MissingValue("[SOFTWARE NAME]", "Hippocratic"))
  {
  }
}

=== FILE: Text.dfy ===
/** String primitives shared by the registry and the installer.

    JavaScript strings are modelled as `seq<char>`. Case-insensitive comparison
    (a RegExp with the `i` flag, `String.prototype.toLowerCase`) is modelled on
    ASCII letters only; every other character compares exactly.
 */
module Text {

  /** ASCII lower-casing of one character; non-letters are returned as they are. */
  function LowerChar(c: char): char {
    if 'A' <= c <= 'Z' then (c as int + 32) as char else c
  }

  function ToLower(s: string): (r: string)
    ensures |r| == |s|
  {
    seq(|s|, i requires 0 <= i < |s| => LowerChar(s[i]))
  }

  /** Two strings that differ at most in the case of ASCII letters. */
  predicate EqualsIgnoreCase(a: string, b: string) {
    ToLower(a) == ToLower(b)
  }

  /** `pat` occurs at position `i` of `text`, ignoring letter case. */
  predicate MatchesAt(text: string, i: nat, pat: string) {
    i + |pat| <= |text| && EqualsIgnoreCase(text[i..i + |pat|], pat)
  }

  /** What `new RegExp(escaped(pat), "i").test(text)` answers. */
  predicate ContainsIgnoreCase(text: string, pat: string) {
    exists i: nat | i <= |text| :: MatchesAt(text, i, pat)
  }

  /** `pat` occurs verbatim at position `i` of `text`. */
  predicate OccursAt(text: string, i: nat, pat: string) {
    i + |pat| <= |text| && text[i..i + |pat|] == pat
  }

  /** What a RegExp without the `i` flag, built from an escaped literal, answers to `test`. */
  predicate Contains(text: string, pat: string) {
    exists i: nat | i <= |text| :: OccursAt(text, i, pat)
  }

  /** `text.replace(new RegExp(escaped(pat), "gi"), val)` with `val` taken literally:
      scan left to right, replace each case-insensitive occurrence of `pat`, and resume
      the scan just after the replaced occurrence, so matches never overlap. An empty
      pattern matches at every position, including the end, as it does in JavaScript. */
  function ReplaceAll(text: string, pat: string, val: string): string
    decreases |text|
  {
    if |pat| == 0 then
      if |text| == 0 then val else val + [text[0]] + ReplaceAll(text[1..], pat, val)
    else if MatchesAt(text, 0, pat) then
      val + ReplaceAll(text[|pat|..], pat, val)
    else if |text| == 0 then
      []
    else
      [text[0]] + ReplaceAll(text[1..], pat, val)
  }

  /** A match in the tail `text[1..]` is a match in `text` one position later. */
  lemma MatchShift(text: string, i: nat, pat: string)
    requires |text| > 0
    ensures MatchesAt(text[1..], i, pat) <==> MatchesAt(text, i + 1, pat)
  {
    if i + 1 + |pat| <= |text| {
      assert text[1..][i..i + |pat|] == text[i + 1..i + 1 + |pat|];
    }
  }

  /** Text that does not contain the pattern comes back unchanged. */
  lemma {:induction false} ReplaceAllUnchanged(text: string, pat: string, val: string)
    requires |pat| > 0
    requires !ContainsIgnoreCase(text, pat)
    ensures ReplaceAll(text, pat, val) == text
    decreases |text|
  {
    assert !MatchesAt(text, 0, pat);
    if |text| > 0 {
      forall i: nat | MatchesAt(text[1..], i, pat)
        ensures false
      {
        MatchShift(text, i, pat);
      }
      ReplaceAllUnchanged(text[1..], pat, val);
      assert [text[0]] + text[1..] == text;
    }
  }

  /** A string contains its own prefix. */
  lemma ContainsPrefix(val: string, rest: string)
    ensures Contains(val + rest, val)
  {
    assert (val + rest)[0..|val|] == val;
    assert OccursAt(val + rest, 0, val);
  }

  /** Prepending a character keeps every verbatim occurrence. */
  lemma ContainsCons(c: char, tail: string, val: string)
    requires Contains(tail, val)
    ensures Contains([c] + tail, val)
  {
    var j: nat :| j <= |tail| && OccursAt(tail, j, val);
    assert ([c] + tail)[j + 1..j + 1 + |val|] == tail[j..j + |val|];
    assert OccursAt([c] + tail, j + 1, val);
  }

  /** Text that contains the pattern comes back containing the value verbatim. */
  lemma {:induction false} ReplaceAllInsertsValue(text: string, pat: string, val: string)
    requires |pat| > 0
    requires ContainsIgnoreCase(text, pat)
    ensures Contains(ReplaceAll(text, pat, val), val)
    decreases |text|
  {
    if MatchesAt(text, 0, pat) {
      ContainsPrefix(val, ReplaceAll(text[|pat|..], pat, val));
    } else {
      var i: nat :| i <= |text| && MatchesAt(text, i, pat);
      MatchShift(text, i - 1, pat);
      ReplaceAllInsertsValue(text[1..], pat, val);
      ContainsCons(text[0], ReplaceAll(text[1..], pat, val), val);
    }
  }

  /** The leftmost occurrence is replaced, everything before it is kept, and the scan
      resumes right after it. Together with `ReplaceAllUnchanged` this determines
      `ReplaceAll` for every non-empty pattern. */
  lemma {:induction false} ReplaceAllFirstMatch(text: string, pat: string, val: string, i: nat)
    requires |pat| > 0
    requires MatchesAt(text, i, pat)
    requires forall j: nat :: j < i ==> !MatchesAt(text, j, pat)
    ensures ReplaceAll(text, pat, val) == text[..i] + val + ReplaceAll(text[i + |pat|..], pat, val)
  {
    ReplaceAllSkipsPrefix(text, pat, val, i);
    var suffix := text[i..];
    assert suffix[0..|pat|] == text[i..i + |pat|];
    assert MatchesAt(suffix, 0, pat);
    assert suffix[|pat|..] == text[i + |pat|..];
    assert ReplaceAll(suffix, pat, val) == val + ReplaceAll(text[i + |pat|..], pat, val);
  }

  /** A prefix in which no match starts is copied through unchanged. */
  lemma {:induction false} ReplaceAllSkipsPrefix(text: string, pat: string, val: string, i: nat)
    requires |pat| > 0 && i <= |text|
    requires forall j: nat :: j < i ==> !MatchesAt(text, j, pat)
    ensures ReplaceAll(text, pat, val) == text[..i] + ReplaceAll(text[i..], pat, val)
    decreases i
  {
    if i == 0 {
      assert text[..0] == [] && text[0..] == text;
    } else {
      var tail := text[1..];
      assert !MatchesAt(text, 0, pat);
      forall j: nat | j < i - 1
        ensures !MatchesAt(tail, j, pat)
      {
        MatchShift(text, j, pat);
      }
      ReplaceAllSkipsPrefix(tail, pat, val, i - 1);
      var rest := ReplaceAll(text[i..], pat, val);
      assert tail[i - 1..] == text[i..];
      calc {
        ReplaceAll(text, pat, val);
        [text[0]] + ReplaceAll(tail, pat, val);
        [text[0]] + (tail[..i - 1] + rest);
        { assert [text[0]] + tail[..i - 1] == text[..i]; }
        text[..i] + rest;
      }
    }
  }

  /** Only the case-folded pattern matters: `<YEAR>` and `<year>` replace the same text. */
  lemma {:induction false} ReplaceAllIgnoresPatternCase(text: string, p: string, q: string, val: string)
    requires EqualsIgnoreCase(p, q)
    ensures ReplaceAll(text, p, val) == ReplaceAll(text, q, val)
    decreases |text|
  {
    assert |p| == |ToLower(p)| == |ToLower(q)| == |q|;
    if |text| > 0 {
      ReplaceAllIgnoresPatternCase(text[1..], p, q, val);
    }
    if |p| > 0 && MatchesAt(text, 0, p) {
      ReplaceAllIgnoresPatternCase(text[|p|..], p, q, val);
    }
  }

  /** Concatenation of a sequence of strings. */
  function Concat(parts: seq<string>): string {
    if |parts| == 0 then [] else parts[0] + Concat(parts[1..])
  }

  /** `n` copies of `s` back to back. */
  function Repeat(s: string, n: nat): string {
    if n == 0 then [] else s + Repeat(s, n - 1)
  }

  /** Replacement is global and case-insensitive: a text made of copies of the pattern,
      each in any letter case, has every copy replaced. */
  lemma {:induction false} ReplaceAllCopies(copies: seq<string>, pat: string, val: string)
    requires |pat| > 0
    requires forall k :: 0 <= k < |copies| ==> EqualsIgnoreCase(copies[k], pat)
    ensures ReplaceAll(Concat(copies), pat, val) == Repeat(val, |copies|)
    decreases |copies|
  {
    var text := Concat(copies);
    if |copies| == 0 {
      assert !MatchesAt(text, 0, pat);
    } else {
      assert EqualsIgnoreCase(copies[0], pat);
      assert |copies[0]| == |ToLower(copies[0])| == |pat|;
      assert text[0..|pat|] == copies[0];
      assert MatchesAt(text, 0, pat);
      assert text[|pat|..] == Concat(copies[1..]);
      ReplaceAllCopies(copies[1..], pat, val);
    }
  }

  /** `s.replace(/[drop]/g, "")`: `s` with every character of `drop` removed. It
      recurses on the last character, which lets `RemoveCharsAppend` do its induction
      on the suffix. */
  function RemoveChars(s: string, drop: set<char>): string {
    if |s| == 0 then []
    else if s[|s| - 1] in drop then RemoveChars(s[..|s| - 1], drop)
    else RemoveChars(s[..|s| - 1], drop) + [s[|s| - 1]]
  }

  /** Exactly the characters of `drop` disappear: the result holds the other characters
      of `s`, and a string with none of them is returned unchanged. */
  lemma {:induction false} RemoveCharsSpec(s: string, drop: set<char>)
    ensures |RemoveChars(s, drop)| <= |s|
    ensures forall c :: c in RemoveChars(s, drop) <==> c in s && c !in drop
    ensures (forall i :: 0 <= i < |s| ==> s[i] !in drop) ==> RemoveChars(s, drop) == s
    decreases |s|
  {
    if |s| > 0 {
      var init := s[..|s| - 1];
      RemoveCharsSpec(init, drop);
      assert s == init + [s[|s| - 1]];
      assert forall c :: c in s <==> c in init || c == s[|s| - 1];
    }
  }

  /** Removal works character by character, so it distributes over concatenation. */
  lemma {:induction false} RemoveCharsAppend(a: string, b: string, drop: set<char>)
    ensures RemoveChars(a + b, drop) == RemoveChars(a, drop) + RemoveChars(b, drop)
    decreases |b|
  {
    if |b| > 0 {
      var ab := a + b;
      assert ab[|ab| - 1] == b[|b| - 1];
      assert ab[..|ab| - 1] == a + b[..|b| - 1];
      RemoveCharsAppend(a, b[..|b| - 1], drop);
    } else {
      assert a + b == a;
    }
  }

  /** The characters `String.prototype.trim` removes: ECMAScript WhiteSpace
      (tab, vertical tab, form feed, no-break space, byte order mark and the
      Unicode space separators) and LineTerminator (LF, CR, LS, PS). */
  predicate IsJsWhitespace(c: char) {
    || '\t' <= c <= '\r'
    || c == ' ' || c == '\U{00A0}' || c == '\U{1680}'
    || '\U{2000}' <= c <= '\U{200A}'
    || c == '\U{2028}' || c == '\U{2029}' || c == '\U{202F}' || c == '\U{205F}'
    || c == '\U{3000}' || c == '\U{FEFF}'
  }

  /** Number of whitespace characters at the start of `s`. */
  function LeadingSpace(s: string): (n: nat)
    ensures n <= |s|
    ensures forall k :: 0 <= k < n ==> IsJsWhitespace(s[k])
    ensures n < |s| ==> !IsJsWhitespace(s[n])
  {
    if |s| > 0 && IsJsWhitespace(s[0]) then 1 + LeadingSpace(s[1..]) else 0
  }

  /** Length of `s` once its trailing whitespace is dropped. */
  function TrailingStart(s: string): (n: nat)
    ensures n <= |s|
    ensures forall k :: n <= k < |s| ==> IsJsWhitespace(s[k])
    ensures n > 0 ==> !IsJsWhitespace(s[n - 1])
  {
    if |s| > 0 && IsJsWhitespace(s[|s| - 1]) then TrailingStart(s[..|s| - 1]) else |s|
  }

  /** `String.prototype.trim`: the result is the slice of `s` after its leading
      whitespace that neither starts nor ends with whitespace. */
  function Trim(s: string): (r: string)
    ensures LeadingSpace(s) + |r| <= |s| && r == s[LeadingSpace(s)..LeadingSpace(s) + |r|]
    ensures |r| > 0 ==> !IsJsWhitespace(r[0]) && !IsJsWhitespace(r[|r| - 1])
  {
    var t := s[LeadingSpace(s)..];
    t[..TrailingStart(t)]
  }

  /** Only whitespace lies outside the trimmed slice. */
  lemma TrimDropsOnlyWhitespace(s: string)
    ensures var i := LeadingSpace(s);
              && (forall k :: 0 <= k < i ==> IsJsWhitespace(s[k]))
              && (forall k :: i + |Trim(s)| <= k < |s| ==> IsJsWhitespace(s[k]))
  {
    var i := LeadingSpace(s);
    var t := s[i..];
    forall k | i + |Trim(s)| <= k < |s|
      ensures IsJsWhitespace(s[k])
    {
      assert s[k] == t[k - i];
    }
  }

  /** Trimming yields the empty string exactly when `s` is all whitespace. */
  lemma TrimEmpty(s: string)
    ensures Trim(s) == [] <==> forall k :: 0 <= k < |s| ==> IsJsWhitespace(s[k])
  {
    TrimDropsOnlyWhitespace(s);
    var i := LeadingSpace(s);
    if i < |s| {
      assert s[i..][0] == s[i];
    }
  }

  /** Trimming twice is trimming once. */
  lemma TrimIdempotent(s: string)
    ensures Trim(Trim(s)) == Trim(s)
  {
    var r := Trim(s);
    assert LeadingSpace(r) == 0;
    if |r| > 0 {
      assert TrailingStart(r) == |r|;
    }
    assert r[0..][..|r|] == r;
  }
}

=== FILE: Wrappers.dfy ===
/** `Option` and `Result`, used across the model.
    - Option<T> stands for a JavaScript value that may be `undefined`; for a prompt
      answer, None is the `null` that `prompt` returns when dismissed.
    - Result<R, E> stands for a call that either returns a value or throws an `Error`.
 */
module Wrappers {

  datatype Option<+T> = None | Some(value: T) {

    /** Returns the wrapped value, or `default` when absent (JavaScript's `??`). */
    function GetOr(default: T): T {
      match this
      case Some(v) => v
      case None => default
    }
  }

  datatype Result<+R, +E> = Success(value: R) | Failure(error: E)
}
